=== FILE: README.md ===
# Flooding and Sybil defence detectors, modelled in Dafny

This project models the two defence decision engines of an ns-3 study of
attacks on AODV route discovery. Each engine is a per-source anomaly detector
that the simulator calls once per received packet. The model proves what each
engine guarantees.

- `AdvancedDefenseManager` (`src/flooding-defence.cc`) rate-limits route
  requests (RREQs).
  - Each source gets a sliding window of one second and at most three
    requests in it.
  - Every rate-limit drop counts one violation for the source.
  - A source with ten violations is flagged. All its later requests are
    dropped on a fast path.
  - Three global `uint32_t` counters record the requests received, dropped
    and accepted.
  - An end-of-run security report lists every source with violations and
    labels it LOW, MEDIUM or HIGH.
- `SybilDetector` (`src/sybil-defence.cc`) rate-limits packets.
  - Each source gets a five-second window and at most three packets in it.
  - Then a burst check runs: five recorded packets within half a second.
  - The detector keeps per-source violation counts and the global
    `g_attackPacketsDropped`.
  - Its report lists each source's count and the drop total.

Each detector is a pure step function: it takes the detector state, the
packet's source and the simulator clock, and returns the next state and a
verdict. What a step decides is stated case by case in a companion lemma
(`ShouldAcceptRreqCases`, `ShouldAcceptCases`). A run feeds a sequence of
events to the step function in order.

Shared modules:
- `DefenseTypes`: addresses, ticks, `uint32_t` counters with explicit
  wrap-around, and `std::map::operator[]` defaults.
- `SlidingWindow`: the eviction loop that both detectors share.
- `AddressOrder`: `std::map` iteration order.
- `CountTotal`: the sum of a map of counts.

Detector modules:
- `FloodingDefence` and `FloodingTraces`: the flooding defence.
- `SybilDefence` and `SybilTraces`: the Sybil defence.

Modelling decisions:

- Time is an integer count of ns-3 ticks at the default nanosecond
  resolution.
  - `(now - t).GetSeconds() > w` becomes `now - t > w * 10^9`.
  - The burst test's `< 0.5` becomes `< 5 * 10^8`.
- Addresses are 32-bit values ordered numerically, as `Ipv4Address`
  compares them.
- Every `uint32_t` counter is incremented with an explicit wrap to zero, via
  `Inc32`. The conservation laws are stated modulo 2^32.
- When a call is rejected for its rate, the state keeps the *evicted* window.
  The code pops the deque through a reference before it decides. The
  flagged fast path of the flooding defence touches neither map.
- The reports are returned as values, not printed.
  - The flooding report holds the number of sources and one entry per source
    with its count and level.
  - The Sybil report holds one line per source and the drop total.
  - Entries appear in ascending address order, as `std::map` iterates.

Consequences of the code as written:

- The burst check at `src/sybil-defence.cc:53-56` can never fire.
  - A packet reaches it only after the rate check has passed, so at most two
    unexpired stamps were recorded. Once the packet is appended, the window
    holds at most three stamps, and three is fewer than the burst size of
    five (`SybilDefence.BurstUnreachable`).
  - Five packets within 0.5 s from a source with no unexpired stamps are
    accepted, accepted, accepted, rate-limited, rate-limited
    (`SybilTraces.FiveQuickPackets`).
  - The burst branch is still modelled exactly as written: it appends first,
    then checks, and a burst-rejected stamp would stay in the window.
- Report entries come in ascending address order, because `std::map`
  iterates that way (`src/flooding-defence.cc:82`,
  `src/sybil-defence.cc:71`).
- The MEDIUM label uses the literal 5 (`src/flooding-defence.cc:84`). It does
  not follow `m_suspiciousThreshold`.
- The flooding defence has no separate "blocked" flag. A source counts as
  flagged while its count is at least the threshold
  (`src/flooding-defence.cc:53-54`).
- Within one second, a new flooding source gets three requests accepted, the
  next ten rate-limited and every later one dropped as flagged
  (`FloodingTraces.FreshSourceSchedule`).

## Model

| member | source | states |
|---|---|---|
| DefenseTypes.Inc32 | src/sybil-defence.cc:44 | `x++` on a `uint32_t` yields `(x + 1) mod 2^32` |
| DefenseTypes.DefaultEntryInvisible | src/flooding-defence.cc:61 | the empty deque or zero count that `operator[]` inserts for a missing key changes no lookup, of that key or any other, and a present key is left as it was |
| SlidingWindow.Evict | src/flooding-defence.cc:61-64 | eviction pops only from the front: the result is a suffix of the window, every popped stamp is expired, and the first kept stamp is not |
| SlidingWindow.EvictKeepsBoundary | src/flooding-defence.cc:62 | the comparison is strict: a stamp exactly one window old is kept |
| SlidingWindow.EvictIdempotent | src/flooding-defence.cc:62-64 | running the eviction loop again at the same instant pops nothing more |
| SlidingWindow.EvictSortedExact | src/sybil-defence.cc:38-40 | on a sorted window, a stamp survives eviction if and only if it is in the window and not expired |
| SlidingWindow.EvictWithin | src/sybil-defence.cc:38-40 | a sorted window with no future stamp is, after eviction, sorted and inside `[now - span, now]` |
| SlidingWindow.AppendSorted | src/flooding-defence.cc:73 | pushing `now` to the back of a sorted window with no later stamp keeps it sorted and not after `now` |
| AddressOrder.SortedKeys | src/flooding-defence.cc:82 | `std::map` iteration visits every key exactly once, in strictly ascending address order |
| FloodingDefence.Tally | src/flooding-defence.cc:50-74 | the counter updates of one call keep `total == dropped + legitimate` modulo 2^32 |
| FloodingDefence.ShouldAcceptRreqCases | src/flooding-defence.cc:47-76 | each call is tallied once; a flagged source is dropped iff flagged, and nothing per-source changes; otherwise the window is evicted and a full evicted window is rate-limited, stored evicted, with the violation count incremented; an accepted request is appended and counts no violation; no other source's entries change |
| FloodingDefence.FlaggedByCount | src/flooding-defence.cc:53-54 | the fast path's `find` treats a never-seen source as unflagged: a source is flagged iff its count, read as `operator[]` would, has reached the threshold |
| FloodingDefence.InitValid | src/flooding-defence.cc:21-36 | the empty maps with all counters at zero satisfy the invariant, and windows are ordered at any clock |
| FloodingDefence.StepPreservesValid | src/flooding-defence.cc:53-74 | one call keeps every count between 1 and the threshold, every window at most `m_rreqLimit` long, a flagged source's window full, and the counters balanced |
| FloodingDefence.StepViolationsMonotone | src/flooding-defence.cc:54-67 | counts never decrease and never exceed the threshold; a count changes iff it is the caller's on a rate-limit drop, and then by exactly one |
| FloodingDefence.StepKeepsFlag | src/flooding-defence.cc:53-58 | a flagged source stays flagged whichever source calls |
| FloodingDefence.StepKeepsOrder | src/flooding-defence.cc:61-73 | with a non-decreasing clock every window stays sorted, and an unflagged caller's window lies within one second of `now` |
| FloodingDefence.ThreatLevel | src/flooding-defence.cc:83-84 | HIGH iff the count is at least 10, MEDIUM iff it is 5 to 9, LOW iff it is below 5 |
| FloodingDefence.ThreatLevelMonotone | src/flooding-defence.cc:83-84 | a larger count never gets a lower label |
| FloodingDefence.SecurityReportOf | src/flooding-defence.cc:78-90 | the report gives the map's size; each entry is a recorded source with its count and label; every recorded source appears; sources ascend |
| FloodingDefence.EntriesOf | src/flooding-defence.cc:82-88 | one entry per key in the given order, carrying that key's count and its label |
| FloodingDefence.ReportListsViolators | src/flooding-defence.cc:81-88 | in a reachable state a source is listed iff it has at least one violation |
| FloodingDefence.ReportHighMeansFlagged | src/flooding-defence.cc:83 | an entry is labelled HIGH iff that source's next request is dropped on the flagged fast path |
| FloodingTraces.RunPreservesValid | src/flooding-defence.cc:47-76 | the invariant holds after any sequence of calls |
| FloodingTraces.RunTallies | src/flooding-defence.cc:50-74 | a run moves the counters exactly as tallying its verdicts in order does |
| FloodingTraces.EachVerdictCountedOnce | src/flooding-defence.cc:55-74 | each verdict is counted as accepted or as dropped, never both |
| FloodingTraces.TallyAllCounts | src/flooding-defence.cc:50-74 | the total counts every call, the legitimate counter the accepted ones and the dropped counter the rest, modulo 2^32 |
| FloodingTraces.TallyAllTotal | src/flooding-defence.cc:50 | every call adds one to `g_totalRreqsReceived`, modulo 2^32 |
| FloodingTraces.TallyAllLegitimate | src/flooding-defence.cc:74 | only accepted calls add to `g_legitimateRreqs`, one each, modulo 2^32 |
| FloodingTraces.TallyAllDropped | src/flooding-defence.cc:55-66 | flagged and rate-limited calls add one each to `g_rreqsDropped`, modulo 2^32 |
| FloodingTraces.TallyFromZero | src/flooding-defence.cc:24-26 | from zero, the three counters hold the number of requests, of accepted and of dropped requests, modulo 2^32, and the last two add up to the first |
| FloodingTraces.StepFrame | src/flooding-defence.cc:61-67 | a call for one source leaves every other source's window and count unchanged |
| FloodingTraces.StepLocal | src/flooding-defence.cc:53-73 | the verdict and the caller's new entries depend only on the caller's own entries |
| FloodingTraces.Independence | src/flooding-defence.cc:47-76 | interleaving other sources' requests changes neither the verdicts for a source nor what is stored about it |
| FloodingTraces.FlagIsTerminal | src/flooding-defence.cc:53-58 | once flagged, a source stays flagged with its entries frozen, and every later request from it is dropped as flagged |
| FloodingTraces.RunKeepsOrder | src/flooding-defence.cc:61-73 | with events in time order every window stays sorted and holds no stamp after the last event |
| FloodingTraces.ScheduleShift | src/flooding-defence.cc:65-73 | a recorded stamp or a counted violation stands in for the request that caused it: the schedule from the shifted start is the original schedule moved on by one request |
| FloodingTraces.StepEntries | src/flooding-defence.cc:53-73 | the first request of a single-source run within one window gets the schedule's first verdict, grows the window or the count by one according to that verdict, and leaves the rest of the run within that window |
| FloodingTraces.StepWithinWindow | src/flooding-defence.cc:53-73 | the first request's verdict followed by the schedule from the state it leaves is the whole run's schedule, and likewise for the final count |
| FloodingTraces.ValidMeansSettled | src/flooding-defence.cc:53-73 | every valid state, and so every reachable one, meets what `RunWithinWindow` asks of a source's entries: a window of at most three stamps, at most ten violations, and a full window once flagged |
| FloodingTraces.RunWithinWindow | src/flooding-defence.cc:47-76 | within one window of the oldest stamp, a source's requests are accepted while its window has room, then rate-limited, one more violation each, until the count reaches ten, and dropped as flagged from then on; the count stops at ten and the window keeps the first three stamps |
| FloodingTraces.FreshSourceSchedule | src/flooding-defence.cc:47-76 | a never-seen source sending within one second of its first request gets three requests accepted, ten rate-limited, and all later ones flagged, ending with a count of at most ten |
| CountTotal.TotalIncrement | src/sybil-defence.cc:45 | `m_violationCounts[src]++` adds one to the sum of all counts modulo 2^32, even when that count wraps |
| CountTotal.TotalUpdate | src/sybil-defence.cc:45 | replacing one count moves the sum by exactly the difference |
| SybilDefence.ShouldAcceptCases | src/sybil-defence.cc:35-66 | the caller always gets an entry; a full evicted window is rate-limited and stored evicted; otherwise `now` is appended, then the burst test decides; every drop counts one violation and one dropped packet; an accept counts nothing; no other source changes |
| SybilDefence.BurstMeansRecentFive | src/sybil-defence.cc:53-55 | on a sorted window, testing the fifth-newest stamp is the same as testing all five: a burst is detected iff the window holds at least five stamps and each of the last five is less than half a second older than `now` |
| SybilDefence.InitValid | src/sybil-defence.cc:24 | the starting state, with empty maps and a zero drop counter, satisfies the invariant, and its windows are ordered at any clock |
| SybilDefence.StepKeepsOrder | src/sybil-defence.cc:38-51 | with a non-decreasing clock every window stays sorted and not after `now`, and the caller's window lies within five seconds of `now` whichever way the packet is judged |
| SybilDefence.StepBurstTest | src/sybil-defence.cc:51-56 | in an ordered state a packet is dropped as a burst iff it passed the rate check and each of the last five stamps of its window, its own included, is less than half a second old |
| SybilDefence.StepPreservesValid | src/sybil-defence.cc:42-58 | one call keeps every window at most `g_maxAllowedRate` long and the drop counter equal to the sum of all counts, modulo 2^32 |
| SybilDefence.StepBoundsWindows | src/sybil-defence.cc:42-51 | no window grows beyond `g_maxAllowedRate` stamps |
| SybilDefence.StepKeepsBalance | src/sybil-defence.cc:44-58 | the drop counter stays the sum of all violation counts, modulo 2^32 |
| SybilDefence.DropKeepsBalance | src/sybil-defence.cc:44-45 | one more drop together with one more violation keeps the balance |
| SybilDefence.BurstUnreachable | src/sybil-defence.cc:42-56 | in every state the burst branch never fires, so a packet is accepted iff it passes the rate check |
| SybilDefence.NoPermanentBlock | src/sybil-defence.cc:38-51 | once every stamp of a source's window has expired, its next packet is accepted whatever its count, and its window restarts from that packet |
| SybilDefence.DrainedAccepts | src/sybil-defence.cc:38-51 | whenever fewer than three of a source's stamps survive eviction, its next packet is accepted whatever its count: the evicted window gets `now` appended and no counter moves |
| SybilDefence.SybilReportOf | src/sybil-defence.cc:68-77 | one line per recorded source with its count, in ascending address order, covering every source, and closing with `g_attackPacketsDropped` |
| SybilDefence.LinesOf | src/sybil-defence.cc:71-74 | one line per key in the given order, carrying that key's count |
| SybilDefence.LinesCover | src/sybil-defence.cc:71-74 | lines built from a map's ascending keys list exactly the map's sources, once each, in order |
| SybilDefence.LinesTotal | src/sybil-defence.cc:71-75 | the counts on the lines add up to the sum of the map's counts |
| SybilDefence.ReportTotalIsSum | src/sybil-defence.cc:68-77 | in a reachable state the closing total equals the sum of the listed counts, modulo 2^32 |
| SybilTraces.RunPreservesValid | src/sybil-defence.cc:35-66 | the invariant holds after any sequence of calls |
| SybilTraces.RunNeverBurst | src/sybil-defence.cc:53-62 | no run, from any state, ever drops a packet as a burst |
| SybilTraces.AcceptStep | src/sybil-defence.cc:42-51 | with fewer than three stamps and the oldest unexpired, a packet is accepted, appended and counts nothing |
| SybilTraces.RejectStep | src/sybil-defence.cc:42-49 | with three stamps and the oldest unexpired, a packet is rate-limited, the window is unchanged, and the count and drop counter each rise by one |
| SybilTraces.StepWithinWindow | src/sybil-defence.cc:38-51 | the first packet of a single-source run within one window is accepted iff the window has room, and the rest of the run still lies within that window |
| SybilTraces.RunWithinWindow | src/sybil-defence.cc:35-66 | within one detection window a source gets exactly as many packets through as its window has room for; every later packet is rate-limited, counted once as a violation and once as a drop; the window keeps the first stamps |
| SybilTraces.StepFrame | src/sybil-defence.cc:38-59 | a packet from one source leaves every other source's window and count unchanged |
| SybilTraces.StepLocal | src/sybil-defence.cc:38-65 | the verdict and the sender's new window and count depend only on the sender's own entries |
| SybilTraces.Independence | src/sybil-defence.cc:35-66 | interleaving other sources' packets changes neither the verdicts for a source nor its window and count |
| SybilTraces.RunKeepsOrder | src/sybil-defence.cc:35-66 | with packets in time order every window stays sorted and holds no stamp after the last packet |
| SybilTraces.FiveQuickPackets | src/sybil-defence.cc:53-62 | five packets from one source within half a second, from the start, are accepted, accepted, accepted, rate-limited, rate-limited; they leave a count of two and a drop total of two |

## Left out

- The `main` functions are not modelled. They only configure the simulation: topology, Wi-Fi, mobility, the AODV stack, NetAnim and PCAP.
- The attacker applications are not modelled. They consist of socket I/O, scheduler loops and random address generation.
- `src/flooding-attack.cc` and `src/sybil-attack.cc` are not modelled, for the same reason.
- The trace callbacks that parse IPv4 headers and call the detectors are not modelled. They are ns-3 API calls, and the verdict they obtain is only logged. Each call becomes an `Event(source, time)` instead.
- The simulator clock is not modelled. `Simulator::Now()` becomes the `now` parameter.
- The floating-point result figures and the labels derived from them are not modelled: delivery ratio, effectiveness, resilience and attack rate.
- Logging and `std::cout` formatting are not modelled. The reports are values.
- `Ipv4Address` internals are not modelled. An address is a 32-bit key ordered by value.
- Tick resolution is fixed: time is counted in nanosecond ticks, the simulator default. A different resolution would scale the window constants.
- The global counters that the detectors never touch are not modelled: sent and received packets, and flooding or attack packets sent.
- SybilTraces.RunWithinWindow: stated only below the 32-bit wrap. The count and the drop counter must stay below 2^32 over the run, so the result can be given as a plain sum. The single steps `RejectStep` and `SybilDefence.ShouldAcceptCases` state the wrapping increment in full.
- SybilTraces.RunWithinWindow: stated for a run of packets from one source. Packets from other sources in between change nothing for that source's verdicts, window or count, by `SybilTraces.Independence`. The statement about the global `dropped` counter holds only for a one-source run, since other sources' drops add to it too.
- FloodingTraces.RunWithinWindow: stated for a run of requests from one source. Requests from other sources in between change nothing for that source, by `FloodingTraces.Independence`.
- SybilTraces.FiveQuickPackets: stated from the initial state only. `RunWithinWindow` covers any starting window.
- SybilDefence.NoPermanentBlock: requires the whole window to have expired. The general case, fewer than three stamps left after eviction whatever the window held before, is `SybilDefence.DrainedAccepts`.
- Time comparisons are not modelled in floating point. The code compares `(now - t).GetSeconds()`, a `double`, with `5.0`, `1.0` and `0.5`. The model assumes the conversion from ticks to seconds is exact at those thresholds and compares integer ticks. The conversion is part of ns-3 and is not part of this model. Only stamps exactly 1 s, 5 s or 0.5 s old could be judged differently.
- SybilDefence.Valid: does not include "every listed source has at least one violation". A `uint32_t` count can wrap back to zero, so that property does not hold for the Sybil detector once a count passes 2^32 - 1.

=== FILE: address_order.dfy ===
/** Iteration over the keys of a `std::map<Ipv4Address, ...>`: ascending
    address order, each key once. */
module AddressOrder {
  import opened DefenseTypes

  /** Addresses in strictly ascending order (which also rules out repeats). */
  predicate StrictlyAscending(s: seq<Addr>)
  {
    forall i, j :: 0 <= i < j < |s| ==> s[i] < s[j]
  }

  /** `k` is the least address of `s`. */
  predicate IsLeast(k: Addr, s: set<Addr>)
  {
    k in s && forall y :: y in s ==> k <= y
  }

  lemma {:induction false} LeastExists(s: set<Addr>)
    requires s != {}
    ensures exists k :: IsLeast(k, s)
    decreases |s|
  {
    var x :| x in s;
    if s == {x} {
      assert IsLeast(x, s);
    } else {
      var rest := s - {x};
      LeastExists(rest);
      var k :| IsLeast(k, rest);
      var m := if x < k then x else k;
      forall y | y in s
        ensures m <= y
      {
        if y != x {
          assert y in rest;
        }
      }
      assert IsLeast(m, s);
    }
  }

  /** The least address of a non-empty set. */
  function MinKey(s: set<Addr>): (k: Addr)
    requires s != {}
    ensures k in s
    ensures forall y :: y in s ==> k <= y
  {
    LeastExists(s);
    var k :| IsLeast(k, s);
    k
  }

  /** The keys of a map as `std::map` iteration visits them. */
  function SortedKeys(s: set<Addr>): (r: seq<Addr>)
    ensures |r| == |s|
    ensures forall a :: a in r <==> a in s
    ensures StrictlyAscending(r)
    decreases |s|
  {
    if s == {} then []
    else
      var k := MinKey(s);
      assert |s - {k}| == |s| - 1;
      var rest := SortedKeys(s - {k});
      assert forall a :: a in rest ==> k < a;
      AscendingCons(k, rest);
      [k] + rest
  }

  lemma AscendingCons(k: Addr, rest: seq<Addr>)
    requires StrictlyAscending(rest)
    requires forall a :: a in rest ==> k < a
    ensures StrictlyAscending([k] + rest)
  {
    var r := [k] + rest;
    forall i, j | 0 <= i < j < |r|
      ensures r[i] < r[j]
    {
      assert r[j] == rest[j - 1];
      if i > 0 {
        assert r[i] == rest[i - 1];
      } else {
        assert rest[j - 1] in rest;
      }
    }
  }
}

=== FILE: count_total.dfy ===
/** The sum of the per-source violation counts of a `std::map<Ipv4Address,
    uint32_t>`, taken over the integers; the detectors' global counter keeps
    this sum modulo 2^32. */
module CountTotal {
  import opened DefenseTypes
  import AddressOrder

  /** The sum of the counts `m` holds for the keys in `ks`. */
  function TotalOver(ks: set<Addr>, m: map<Addr, U32>): nat
    requires ks <= m.Keys
    decreases |ks|
  {
    if ks == {} then 0
    else
      var k := AddressOrder.MinKey(ks);
      m[k] + TotalOver(ks - {k}, m)
  }

  /** The sum of every count in `m`. */
  function Total(m: map<Addr, U32>): nat
  {
    TotalOver(m.Keys, m)
  }

  /** Any one key's count can be split off the sum, not only the least one. */
  lemma {:induction false} TotalRemove(ks: set<Addr>, m: map<Addr, U32>, k: Addr)
    requires ks <= m.Keys && k in ks
    ensures TotalOver(ks, m) == m[k] + TotalOver(ks - {k}, m)
    decreases |ks|
  {
    var a := AddressOrder.MinKey(ks);
    if a != k {
      assert TotalOver(ks, m) == m[a] + TotalOver(ks - {a}, m);
      TotalRemove(ks - {a}, m, k);
      TotalRemove(ks - {k}, m, a);
      assert ks - {a} - {k} == ks - {k} - {a};
    }
  }

  /** Counts outside `ks` do not enter the sum over `ks`. */
  lemma {:induction false} TotalOverFrame(ks: set<Addr>, m: map<Addr, U32>, k: Addr, v: U32)
    requires ks <= m.Keys && k !in ks
    ensures TotalOver(ks, m[k := v]) == TotalOver(ks, m)
    decreases |ks|
  {
    if ks != {} {
      var a := AddressOrder.MinKey(ks);
      TotalOverFrame(ks - {a}, m, k, v);
    }
  }

  /** Replacing one count moves the sum by the difference. */
  lemma TotalUpdate(m: map<Addr, U32>, k: Addr, v: U32)
    ensures Total(m[k := v]) == Total(m) - CountOf(m, k) + v
  {
    var m' := m[k := v];
    TotalRemove(m'.Keys, m', k);
    assert m'.Keys - {k} == m.Keys - {k};
    TotalOverFrame(m.Keys - {k}, m, k, v);
    if k in m {
      TotalRemove(m.Keys, m, k);
    } else {
      assert m.Keys - {k} == m.Keys;
    }
  }

  /** `m[k]++` on a `uint32_t` count adds one to the sum, modulo 2^32, even
      when that count wraps to zero. */
  lemma TotalIncrement(m: map<Addr, U32>, k: Addr)
    ensures Total(m[k := Inc32(CountOf(m, k))]) % Modulus32 == (Total(m) + 1) % Modulus32
  {
    var c := CountOf(m, k);
    TotalUpdate(m, k, Inc32(c));
    if c == Modulus32 - 1 {
      assert Total(m[k := Inc32(c)]) == (Total(m) + 1) + (-1) * Modulus32;
      ModShift(Total(m) + 1, -1);
    }
  }
}

=== FILE: defense_types.dfy ===
/** Types shared by both detectors: source addresses, simulation time and the
    32-bit unsigned counters the detectors keep. */
module DefenseTypes {

  /** An IPv4 source address. `std::map<Ipv4Address, ...>` orders addresses by
      their 32-bit value, so the model orders them as integers. */
  newtype Addr = x: int | 0 <= x < 0x1_0000_0000

  /** A simulation time stamp in ns-3 ticks. */
  type Time = int

  /** One call of a detector: the packet's source and the simulator clock. */
  datatype Event = Event(source: Addr, time: Time)

  /** The simulator delivers events in non-decreasing time order, none before `clock`. */
  predicate InTimeOrder(evs: seq<Event>, clock: Time)
  {
    && (forall i :: 0 <= i < |evs| ==> clock <= evs[i].time)
    && (forall i, j :: 0 <= i < j < |evs| ==> evs[i].time <= evs[j].time)
  }

  /** The clock after the run: the last event's time, or `clock` if there is none. */
  function LastTime(evs: seq<Event>, clock: Time): Time
  {
    if evs == [] then clock else evs[|evs| - 1].time
  }

  /** Everything a detector stores about one source: whether it has a window
      and what that window is, whether it has a count and what that count is. */
  datatype SourceView = SourceView(tracked: bool, window: seq<Time>, recorded: bool, violations: U32)

  /** The events from source `a`, in order. */
  function Only(evs: seq<Event>, a: Addr): (r: seq<Event>)
    ensures |r| <= |evs|
    ensures forall i :: 0 <= i < |r| ==> r[i].source == a
  {
    if evs == [] then []
    else if evs[0].source == a then [evs[0]] + Only(evs[1..], a)
    else Only(evs[1..], a)
  }

  /** The entries of `vs` (one per event) given to the events from source
      `a`, in order. */
  function VerdictsFor<V>(evs: seq<Event>, vs: seq<V>, a: Addr): (r: seq<V>)
    requires |vs| == |evs|
    ensures |r| == |Only(evs, a)|
  {
    if evs == [] then []
    else if evs[0].source == a then [vs[0]] + VerdictsFor(evs[1..], vs[1..], a)
    else VerdictsFor(evs[1..], vs[1..], a)
  }

  /** ns-3 ticks per second at the simulator's default (nanosecond) resolution. */
  const TicksPerSecond: nat := 1_000_000_000

  const Modulus32: nat := 0x1_0000_0000

  /** The values of a `uint32_t`. */
  type U32 = x: nat | x < 0x1_0000_0000

  /** `x++` on a `uint32_t`: one more, wrapping to zero past the largest value. */
  function Inc32(x: U32): (r: U32)
    ensures r == (x + 1) % Modulus32
  {
    if x + 1 == Modulus32 then 0 else x + 1
  }

  /** `m[a]` on a `std::map<Ipv4Address, std::deque<Time>>`: the window of `a`,
      or the empty deque the operator would insert. */
  function WindowOf(m: map<Addr, seq<Time>>, a: Addr): seq<Time>
  {
    if a in m then m[a] else []
  }

  /** `m[a]` on a `std::map<Ipv4Address, uint32_t>`: the count of `a`, or the
      zero the operator would insert. */
  function CountOf(m: map<Addr, U32>, a: Addr): U32
  {
    if a in m then m[a] else 0
  }

  /** The entry `operator[]` inserts for a missing key is invisible: every
      lookup, of that key or any other, reads as before, and a key already
      present is not touched. */
  lemma DefaultEntryInvisible(times: map<Addr, seq<Time>>, counts: map<Addr, U32>, a: Addr)
    ensures forall b :: WindowOf(times[a := WindowOf(times, a)], b) == WindowOf(times, b)
    ensures forall b :: CountOf(counts[a := CountOf(counts, a)], b) == CountOf(counts, b)
    ensures a in times ==> times[a := WindowOf(times, a)] == times
    ensures a in counts ==> counts[a := CountOf(counts, a)] == counts
  {
  }

  /** Adding to a 32-bit counter and then wrapping agrees with wrapping at the end. */
  lemma {:induction false} WrapAdd(x: int, n: int)
    ensures ((x % Modulus32) + n) % Modulus32 == (x + n) % Modulus32
  {
    var q := x / Modulus32;
    assert x == q * Modulus32 + x % Modulus32;
    assert x + n == (x % Modulus32 + n) + q * Modulus32;
    ModShift(x % Modulus32 + n, q);
  }

  /** Incrementing and then adding `n` agrees with adding `n + 1`, modulo 2^32. */
  lemma Inc32ThenAdd(x: U32, n: int)
    ensures (Inc32(x) + n) % Modulus32 == (x + 1 + n) % Modulus32
  {
    if x + 1 == Modulus32 {
      ModShift(n, 1);
    }
  }

  lemma ModShift(y: int, q: int)
    ensures (y + q * Modulus32) % Modulus32 == y % Modulus32
  {
  }

  /** `m'` agrees with `m` at every key other than `k`. */
  predicate AgreeExcept<V(==)>(m: map<Addr, V>, m': map<Addr, V>, k: Addr)
  {
    forall a :: a != k ==> (a in m' <==> a in m) && (a in m ==> m'[a] == m[a])
  }

  /** The time stamps of the events, in order. */
  function Times(evs: seq<Event>): (ts: seq<Time>)
    ensures |ts| == |evs|
    ensures forall i :: 0 <= i < |evs| ==> ts[i] == evs[i].time
  {
    if evs == [] then [] else [evs[0].time] + Times(evs[1..])
  }

  /** Every event comes from `a`. */
  predicate FromOne(evs: seq<Event>, a: Addr)
  {
    forall i :: 0 <= i < |evs| ==> evs[i].source == a
  }

  /** Moving a run's first stamp to the end of the window leaves the
      concatenation, and so its front and the events' sources, unchanged. */
  lemma {:induction false} TimesCons(w: seq<Time>, evs: seq<Event>)
    requires evs != []
    ensures w + Times(evs) == (w + [evs[0].time]) + Times(evs[1..])
    ensures w != [] ==> (w + Times(evs))[0] == w[0] == (w + Times(evs[1..]))[0]
    ensures forall i :: 0 <= i < |evs[1..]| ==> evs[1..][i] == evs[i + 1]
  {
    assert Times(evs) == [evs[0].time] + Times(evs[1..]);
  }

  /** Indexing into a sequence with one element put in front. */
  lemma ConsIndex<T>(x: T, r: seq<T>)
    ensures ([x] + r)[0] == x
    ensures forall i :: 1 <= i < |r| + 1 ==> ([x] + r)[i] == r[i - 1]
  {
  }
}

=== FILE: flooding_defence.dfy ===
/** `AdvancedDefenseManager`, the route-request flooding defence: a per-source
    sliding-window rate limiter (3 requests per second) that flags a source for
    good after 10 rate-limit violations, the three global request counters it
    updates, and its end-of-run security report. */
module FloodingDefence {
  import opened DefenseTypes
  import opened SlidingWindow
  import AddressOrder

  /** `m_rreqLimit`: at most this many requests per window and source. */
  const RreqLimit: nat := 3
  /** `m_timeWindow`: one second, in ticks. */
  const TimeWindow: nat := 1 * TicksPerSecond
  /** `m_suspiciousThreshold`: violations after which a source is flagged. */
  const SuspiciousThreshold: nat := 10
  /** The report's MEDIUM bound, a literal independent of the threshold. */
  const MediumThreshold: nat := 5

  /** `g_totalRreqsReceived`, `g_rreqsDropped` and `g_legitimateRreqs`. */
  datatype Counters = Counters(total: U32, dropped: U32, legitimate: U32)

  /** The total is the sum of dropped and legitimate requests, as `uint32_t`s. */
  predicate Balanced(c: Counters)
  {
    c.total == (c.dropped + c.legitimate) % Modulus32
  }

  /** The counter updates of one call: the total and then either the legitimate
      or the dropped counter go up by one; the balance between them is kept. */
  function Tally(c: Counters, accepted: bool): (c': Counters)
    ensures Balanced(c) ==> Balanced(c')
  {
    Inc32ThenAdd(c.total, 0);
    WrapAdd(c.dropped + c.legitimate, 1);
    if accepted then
      Inc32ThenAdd(c.legitimate, c.dropped);
      Counters(Inc32(c.total), c.dropped, Inc32(c.legitimate))
    else
      Inc32ThenAdd(c.dropped, c.legitimate);
      Counters(Inc32(c.total), Inc32(c.dropped), c.legitimate)
  }

  /** `m_rreqTimes`, `m_suspiciousActivity` and the global counters. */
  datatype State = State(times: map<Addr, seq<Time>>, violations: map<Addr, U32>, counters: Counters)

  /** Why a request was accepted or dropped. */
  datatype Verdict = Accepted | RateLimited | Flagged

  datatype Outcome = Outcome(next: State, verdict: Verdict)
  {
    predicate Accepts() { verdict.Accepted? }
  }

  /** The state when the simulation starts: nothing seen, all counters zero. */
  const Init := State(map[], map[], Counters(0, 0, 0))

  /** A source is flagged malicious once its violations reach the threshold. */
  predicate IsFlagged(s: State, a: Addr)
  {
    a in s.violations && s.violations[a] >= SuspiciousThreshold
  }

  /** The fast path looks the source up without inserting it, so a source
      never seen counts as having no violations: flagged exactly when its
      count, as `operator[]` would read it, has reached the threshold. */
  lemma FlaggedByCount(s: State, a: Addr)
    ensures IsFlagged(s, a) <==> CountOf(s.violations, a) >= SuspiciousThreshold
  {
  }

  /** `ShouldAcceptRREQ(source)` at simulation time `now`;
      `ShouldAcceptRreqCases` states what it decides. */
  function ShouldAcceptRreq(s: State, src: Addr, now: Time): Outcome
  {
    if IsFlagged(s, src) then
      Outcome(s.(counters := Tally(s.counters, false)), Flagged)
    else
      var window := Evict(WindowOf(s.times, src), now, TimeWindow);
      if |window| >= RreqLimit then
        Outcome(State(s.times[src := window],
                      s.violations[src := Inc32(CountOf(s.violations, src))],
                      Tally(s.counters, false)),
                RateLimited)
      else
        Outcome(State(s.times[src := window + [now]],
                      s.violations,
                      Tally(s.counters, true)),
                Accepted)
  }

  /** What one call decides and records, case by case. */
  lemma ShouldAcceptRreqCases(s: State, src: Addr, now: Time)
    ensures var o := ShouldAcceptRreq(s, src, now);
            var evicted := Evict(WindowOf(s.times, src), now, TimeWindow);
            // every call is tallied once, as accepted or as dropped
            && o.next.counters == Tally(s.counters, o.Accepts())
            // a flagged source is dropped on the fast path, and nothing per-source moves
            && (o.verdict == Flagged <==> IsFlagged(s, src))
            && (o.verdict == Flagged ==> o.next.times == s.times && o.next.violations == s.violations)
            // otherwise the expired entries are evicted and the evicted size decides
            && (o.verdict == RateLimited <==> !IsFlagged(s, src) && |evicted| >= RreqLimit)
            && (o.verdict == RateLimited ==>
                  && src in o.next.times
                  && o.next.times[src] == evicted
                  && o.next.violations == s.violations[src := Inc32(CountOf(s.violations, src))])
            && (o.Accepts() ==>
                  && src in o.next.times
                  && o.next.times[src] == evicted + [now]
                  && o.next.violations == s.violations)
            // no other source's entries change
            && AgreeExcept(s.times, o.next.times, src)
            && AgreeExcept(s.violations, o.next.violations, src)
  {
  }

  /** What every reachable state satisfies: each recorded source has between one
      and `SuspiciousThreshold` violations, each window holds at most `RreqLimit`
      stamps, a flagged source's window is full (it was rate-limited into the
      flag), and the total is the sum of dropped and legitimate (mod 2^32). */
  predicate Valid(s: State)
  {
    && (forall a :: a in s.violations ==> 1 <= s.violations[a] <= SuspiciousThreshold)
    && (forall a :: a in s.times ==> |s.times[a]| <= RreqLimit)
    && (forall a :: IsFlagged(s, a) ==> |WindowOf(s.times, a)| == RreqLimit)
    && Balanced(s.counters)
  }

  /** Per-source windows are sorted and hold no stamp after `clock`. */
  predicate Ordered(s: State, clock: Time)
  {
    forall a :: a in s.times ==> Sorted(s.times[a]) && NotAfter(s.times[a], clock)
  }

  lemma InitValid()
    ensures Valid(Init) && forall clock :: Ordered(Init, clock)
  {
  }

  /** One call keeps the invariant; in particular the caller's window never
      exceeds `RreqLimit` and its violations never exceed the threshold. */
  lemma StepPreservesValid(s: State, src: Addr, now: Time)
    requires Valid(s)
    ensures Valid(ShouldAcceptRreq(s, src, now).next)
    ensures |WindowOf(ShouldAcceptRreq(s, src, now).next.times, src)| <= RreqLimit
  {
    var o := ShouldAcceptRreq(s, src, now);
    var n := o.next;
    assert forall a :: a in n.violations ==> 1 <= n.violations[a] <= SuspiciousThreshold by {
      assert CountOf(s.violations, src) < SuspiciousThreshold || o.verdict == Flagged;
    }
    assert forall a :: a in n.times ==> |n.times[a]| <= RreqLimit by {
      assert |WindowOf(s.times, src)| <= RreqLimit;
    }
    assert forall a :: IsFlagged(n, a) ==> |WindowOf(n.times, a)| == RreqLimit by {
      forall a | IsFlagged(n, a)
        ensures |WindowOf(n.times, a)| == RreqLimit
      {
        if a != src {
          assert IsFlagged(s, a);
        }
      }
    }
  }

  /** Violation counts never go down; only the caller's count can go up, by
      exactly one and only on a rate-limit drop. */
  lemma StepViolationsMonotone(s: State, src: Addr, now: Time, a: Addr)
    requires Valid(s)
    ensures var o := ShouldAcceptRreq(s, src, now);
            && CountOf(s.violations, a) <= CountOf(o.next.violations, a) <= SuspiciousThreshold
            && (CountOf(o.next.violations, a) != CountOf(s.violations, a) <==>
                  a == src && o.verdict == RateLimited)
            && (a == src && o.verdict == RateLimited ==>
                  CountOf(o.next.violations, a) == CountOf(s.violations, a) + 1)
  {
    var o := ShouldAcceptRreq(s, src, now);
    StepPreservesValid(s, src, now);
  }

  /** A flagged source stays flagged whoever calls: the flag is terminal. */
  lemma StepKeepsFlag(s: State, src: Addr, now: Time, a: Addr)
    requires IsFlagged(s, a)
    ensures IsFlagged(ShouldAcceptRreq(s, src, now).next, a)
  {
  }

  /** Sorted windows stay sorted while the clock does not go back, and the
      caller's window then lies within `[now - TimeWindow, now]`. */
  lemma StepKeepsOrder(s: State, src: Addr, now: Time, clock: Time)
    requires Ordered(s, clock) && clock <= now
    ensures Ordered(ShouldAcceptRreq(s, src, now).next, now)
    ensures !IsFlagged(s, src) ==>
              Within(WindowOf(ShouldAcceptRreq(s, src, now).next.times, src), now, TimeWindow)
  {
    var o := ShouldAcceptRreq(s, src, now);
    var w := WindowOf(s.times, src);
    assert Sorted(w) && NotAfter(w, now);
    EvictWithin(w, now, TimeWindow);
    AppendSorted(Evict(w, now, TimeWindow), now);
    forall a | a in o.next.times
      ensures Sorted(o.next.times[a]) && NotAfter(o.next.times[a], now)
    {
      if a != src {
        assert a in s.times;
      }
    }
  }

  /** The threat label `PrintSecurityReport` gives a violation count. */
  datatype Level = Low | Medium | High

  function ThreatLevel(count: nat): (l: Level)
    ensures l == High <==> count >= SuspiciousThreshold
    ensures l == Medium <==> MediumThreshold <= count < SuspiciousThreshold
    ensures l == Low <==> count < MediumThreshold
  {
    if count >= SuspiciousThreshold then High
    else if count >= MediumThreshold then Medium
    else Low
  }

  /** A higher count never gets a lower label. */
  lemma ThreatLevelMonotone(x: nat, y: nat)
    requires x <= y
    ensures ThreatLevel(x) == High ==> ThreatLevel(y) == High
    ensures ThreatLevel(x) == Medium ==> ThreatLevel(y) != Low
  {
  }

  datatype ReportEntry = ReportEntry(source: Addr, violations: U32, level: Level)

  /** "Suspicious Sources Detected" and one line per entry of `m_suspiciousActivity`. */
  datatype SecurityReport = SecurityReport(suspiciousSources: nat, entries: seq<ReportEntry>)

  function SecurityReportOf(s: State): (r: SecurityReport)
    ensures r.suspiciousSources == |s.violations| == |r.entries|
    ensures forall i :: 0 <= i < |r.entries| ==>
              && r.entries[i].source in s.violations
              && r.entries[i].violations == s.violations[r.entries[i].source]
              && r.entries[i].level == ThreatLevel(r.entries[i].violations)
    ensures forall a :: a in s.violations ==>
              exists i :: 0 <= i < |r.entries| && r.entries[i].source == a
    ensures forall i, j :: 0 <= i < j < |r.entries| ==> r.entries[i].source < r.entries[j].source
  {
    var keys := AddressOrder.SortedKeys(s.violations.Keys);
    SecurityReport(|s.violations|, EntriesOf(keys, s.violations))
  }

  /** One report line per key, in the order given. */
  function EntriesOf(keys: seq<Addr>, m: map<Addr, U32>): (es: seq<ReportEntry>)
    requires forall i :: 0 <= i < |keys| ==> keys[i] in m
    ensures |es| == |keys|
    ensures forall i :: 0 <= i < |keys| ==>
              es[i] == ReportEntry(keys[i], m[keys[i]], ThreatLevel(m[keys[i]]))
  {
    if keys == [] then []
    else [ReportEntry(keys[0], m[keys[0]], ThreatLevel(m[keys[0]]))] + EntriesOf(keys[1..], m)
  }

  /** In a reachable state the report lists exactly the sources with at least
      one violation. */
  lemma ReportListsViolators(s: State, a: Addr)
    requires Valid(s)
    ensures (exists i :: 0 <= i < |SecurityReportOf(s).entries| && SecurityReportOf(s).entries[i].source == a)
            <==> CountOf(s.violations, a) >= 1
  {
    var r := SecurityReportOf(s);
    if a in s.violations {
      var i :| 0 <= i < |r.entries| && r.entries[i].source == a;
    }
    if exists i :: 0 <= i < |r.entries| && r.entries[i].source == a {
      var i :| 0 <= i < |r.entries| && r.entries[i].source == a;
      assert a in s.violations;
    }
  }

  /** A source is labelled HIGH exactly when it is flagged, that is when its next
      request is dropped on the fast path whenever it comes. */
  lemma ReportHighMeansFlagged(s: State, i: nat, now: Time)
    requires i < |SecurityReportOf(s).entries|
    ensures SecurityReportOf(s).entries[i].level == High <==>
              ShouldAcceptRreq(s, SecurityReportOf(s).entries[i].source, now).verdict == Flagged
  {
    var e := SecurityReportOf(s).entries[i];
    assert e.level == High <==> IsFlagged(s, e.source);
    ShouldAcceptRreqCases(s, e.source, now);
  }
}

=== FILE: flooding_traces.dfy ===
/** Runs of `AdvancedDefenseManager` over a sequence of route requests, and what
    holds of every run: the counters count every request, a flagged source stays
    flagged and is always dropped, sources do not influence each other, and
    windows stay sorted while the clock moves forward. */
module FloodingTraces {
  import opened DefenseTypes
  import opened SlidingWindow
  import opened FloodingDefence

  datatype Trace = Trace(final: State, verdicts: seq<Verdict>)

  /** Feeds the events to `ShouldAcceptRreq` in order; one verdict per event. */
  function Run(s: State, evs: seq<Event>): (t: Trace)
    ensures |t.verdicts| == |evs|
    decreases |evs|
  {
    if evs == [] then Trace(s, [])
    else
      var o := ShouldAcceptRreq(s, evs[0].source, evs[0].time);
      var rest := Run(o.next, evs[1..]);
      Trace(rest.final, [o.verdict] + rest.verdicts)
  }

  lemma {:induction false} RunPreservesValid(s: State, evs: seq<Event>)
    requires Valid(s)
    ensures Valid(Run(s, evs).final)
    decreases |evs|
  {
    if evs != [] {
      StepPreservesValid(s, evs[0].source, evs[0].time);
      RunPreservesValid(ShouldAcceptRreq(s, evs[0].source, evs[0].time).next, evs[1..]);
    }
  }

  /** The counters after tallying each verdict in turn. */
  function TallyAll(c: Counters, vs: seq<Verdict>): Counters
    decreases |vs|
  {
    if vs == [] then c else TallyAll(Tally(c, vs[0].Accepted?), vs[1..])
  }

  /** A run moves the global counters exactly as tallying its verdicts does. */
  lemma {:induction false} RunTallies(s: State, evs: seq<Event>)
    ensures Run(s, evs).final.counters == TallyAll(s.counters, Run(s, evs).verdicts)
    decreases |evs|
  {
    if evs != [] {
      var o := ShouldAcceptRreq(s, evs[0].source, evs[0].time);
      var t := Run(s, evs);
      RunTallies(o.next, evs[1..]);
      assert t.verdicts[1..] == Run(o.next, evs[1..]).verdicts;
    }
  }

  /** How many of the verdicts accept, and how many drop. */
  function AcceptedIn(vs: seq<Verdict>): nat
  {
    multiset(vs)[Accepted]
  }

  function DroppedIn(vs: seq<Verdict>): nat
  {
    multiset(vs)[RateLimited] + multiset(vs)[Flagged]
  }

  /** Every verdict either accepts or drops. */
  lemma {:induction false} EachVerdictCountedOnce(vs: seq<Verdict>)
    ensures AcceptedIn(vs) + DroppedIn(vs) == |vs|
    decreases |vs|
  {
    if vs != [] {
      EachVerdictCountedOnce(vs[1..]);
      assert vs == [vs[0]] + vs[1..];
      var m, r := multiset(vs), multiset(vs[1..]);
      assert m == multiset{vs[0]} + r;
      match vs[0]
      case Accepted =>
        assert m[Accepted] == r[Accepted] + 1 && m[RateLimited] == r[RateLimited] && m[Flagged] == r[Flagged];
      case RateLimited =>
        assert m[Accepted] == r[Accepted] && m[RateLimited] == r[RateLimited] + 1 && m[Flagged] == r[Flagged];
      case Flagged =>
        assert m[Accepted] == r[Accepted] && m[RateLimited] == r[RateLimited] && m[Flagged] == r[Flagged] + 1;
    }
  }

  /** Tallying counts every verdict in the total, the accepted ones in the
      legitimate counter and the others in the dropped counter, each as a
      `uint32_t`. */
  lemma TallyAllCounts(c: Counters, vs: seq<Verdict>)
    ensures TallyAll(c, vs).total == (c.total + |vs|) % Modulus32
    ensures TallyAll(c, vs).legitimate == (c.legitimate + AcceptedIn(vs)) % Modulus32
    ensures TallyAll(c, vs).dropped == (c.dropped + DroppedIn(vs)) % Modulus32
  {
    TallyAllTotal(c, vs);
    TallyAllLegitimate(c, vs);
    TallyAllDropped(c, vs);
  }

  lemma {:induction false} TallyAllTotal(c: Counters, vs: seq<Verdict>)
    ensures TallyAll(c, vs).total == (c.total + |vs|) % Modulus32
    decreases |vs|
  {
    if vs != [] {
      var c1 := Tally(c, vs[0].Accepted?);
      TallyAllTotal(c1, vs[1..]);
      CountStep(c.total, c1.total, true, |vs[1..]|, |vs|, TallyAll(c, vs).total);
    }
  }

  lemma {:induction false} TallyAllLegitimate(c: Counters, vs: seq<Verdict>)
    ensures TallyAll(c, vs).legitimate == (c.legitimate + AcceptedIn(vs)) % Modulus32
    decreases |vs|
  {
    if vs == [] {
      assert AcceptedIn(vs) == 0;
    } else {
      var b := vs[0].Accepted?;
      var c1 := Tally(c, b);
      var rest := vs[1..];
      TallyAllLegitimate(c1, rest);
      assert vs == [vs[0]] + rest;
      assert AcceptedIn(vs) == AcceptedIn(rest) + (if b then 1 else 0);
      CountStep(c.legitimate, c1.legitimate, b, AcceptedIn(rest), AcceptedIn(vs), TallyAll(c, vs).legitimate);
    }
  }

  lemma {:induction false} TallyAllDropped(c: Counters, vs: seq<Verdict>)
    ensures TallyAll(c, vs).dropped == (c.dropped + DroppedIn(vs)) % Modulus32
    decreases |vs|
  {
    if vs == [] {
      assert DroppedIn(vs) == 0;
    } else {
      var b := vs[0].Accepted?;
      var c1 := Tally(c, b);
      var rest := vs[1..];
      TallyAllDropped(c1, rest);
      assert vs == [vs[0]] + rest;
      assert DroppedIn(vs) == DroppedIn(rest) + (if b then 0 else 1);
      CountStep(c.dropped, c1.dropped, !b, DroppedIn(rest), DroppedIn(vs), TallyAll(c, vs).dropped);
    }
  }

  /** One counter over one step and then `m` more increments. */
  lemma CountStep(x: U32, x1: U32, bump: bool, m: nat, all: int, y: int)
    requires x1 == if bump then Inc32(x) else x
    requires y == (x1 + m) % Modulus32
    requires all == m + (if bump then 1 else 0)
    ensures y == (x + all) % Modulus32
  {
    if bump {
      Inc32ThenAdd(x, m);
    }
  }

  /** Tallied from zero, as at the start of the simulation, the counters hold
      exactly the number of requests, accepted requests and dropped requests,
      modulo 2^32, and the total stays the sum of the other two. Together with
      `RunTallies` this describes the counters after any run from the start. */
  lemma TallyFromZero(vs: seq<Verdict>)
    ensures TallyAll(Counters(0, 0, 0), vs).total == |vs| % Modulus32
    ensures TallyAll(Counters(0, 0, 0), vs).legitimate == AcceptedIn(vs) % Modulus32
    ensures TallyAll(Counters(0, 0, 0), vs).dropped == DroppedIn(vs) % Modulus32
    ensures AcceptedIn(vs) + DroppedIn(vs) == |vs|
  {
    var zero := Counters(0, 0, 0);
    TallyAllCounts(zero, vs);
    assert zero.total + |vs| == |vs|;
    assert zero.legitimate + AcceptedIn(vs) == AcceptedIn(vs);
    assert zero.dropped + DroppedIn(vs) == DroppedIn(vs);
    EachVerdictCountedOnce(vs);
  }

  /** Everything the detector stores about source `a`. */
  function View(s: State, a: Addr): SourceView
  {
    SourceView(a in s.times, WindowOf(s.times, a), a in s.violations, CountOf(s.violations, a))
  }

  /** A request from another source leaves `a`'s entries alone. */
  lemma StepFrame(s: State, src: Addr, now: Time, a: Addr)
    requires a != src
    ensures View(ShouldAcceptRreq(s, src, now).next, a) == View(s, a)
  {
  }

  /** The verdict for `a` and `a`'s next entries depend on `a`'s entries alone. */
  lemma StepLocal(s: State, s': State, a: Addr, now: Time)
    requires View(s, a) == View(s', a)
    ensures ShouldAcceptRreq(s, a, now).verdict == ShouldAcceptRreq(s', a, now).verdict
    ensures View(ShouldAcceptRreq(s, a, now).next, a) == View(ShouldAcceptRreq(s', a, now).next, a)
  {
    assert IsFlagged(s, a) == IsFlagged(s', a);
  }

  /** Sources are judged independently: interleaving other sources' requests
      changes neither the verdicts for `a` nor what is stored about `a`. */
  lemma {:induction false} Independence(s: State, s': State, evs: seq<Event>, a: Addr)
    requires View(s, a) == View(s', a)
    ensures View(Run(s, evs).final, a) == View(Run(s', Only(evs, a)).final, a)
    ensures VerdictsFor(evs, Run(s, evs).verdicts, a) == Run(s', Only(evs, a)).verdicts
    decreases |evs|
  {
    if evs != [] {
      var e := evs[0];
      var o := ShouldAcceptRreq(s, e.source, e.time);
      var t := Run(s, evs);
      assert t.verdicts[1..] == Run(o.next, evs[1..]).verdicts;
      if e.source == a {
        var o' := ShouldAcceptRreq(s', a, e.time);
        StepLocal(s, s', a, e.time);
        Independence(o.next, o'.next, evs[1..], a);
        assert Only(evs, a) == [e] + Only(evs[1..], a);
        assert Only(evs, a)[1..] == Only(evs[1..], a);
      } else {
        StepFrame(s, e.source, e.time, a);
        Independence(o.next, s', evs[1..], a);
      }
    }
  }

  /** Once flagged, a source stays flagged, its window and count never change
      again, and every later request from it is dropped on the fast path. */
  lemma {:induction false} FlagIsTerminal(s: State, evs: seq<Event>, a: Addr)
    requires IsFlagged(s, a)
    ensures IsFlagged(Run(s, evs).final, a)
    ensures View(Run(s, evs).final, a) == View(s, a)
    ensures forall i :: 0 <= i < |evs| && evs[i].source == a ==> Run(s, evs).verdicts[i] == Flagged
    decreases |evs|
  {
    if evs != [] {
      var e := evs[0];
      var o := ShouldAcceptRreq(s, e.source, e.time);
      StepKeepsFlag(s, e.source, e.time, a);
      if e.source != a {
        StepFrame(s, e.source, e.time, a);
      }
      FlagIsTerminal(o.next, evs[1..], a);
      var t := Run(s, evs);
      assert t.verdicts == [o.verdict] + Run(o.next, evs[1..]).verdicts;
      forall i | 0 <= i < |evs| && evs[i].source == a
        ensures t.verdicts[i] == Flagged
      {
        if i > 0 {
          assert evs[1..][i - 1] == evs[i];
        }
      }
    }
  }

  /** While the clock does not go back, every window stays sorted and holds no
      stamp after the last event's time. */
  lemma {:induction false} RunKeepsOrder(s: State, evs: seq<Event>, clock: Time)
    requires Ordered(s, clock) && InTimeOrder(evs, clock)
    ensures Ordered(Run(s, evs).final, LastTime(evs, clock))
    decreases |evs|
  {
    if evs != [] {
      var e := evs[0];
      StepKeepsOrder(s, e.source, e.time, clock);
      assert InTimeOrder(evs[1..], e.time);
      RunKeepsOrder(ShouldAcceptRreq(s, e.source, e.time).next, evs[1..], e.time);
      assert LastTime(evs[1..], e.time) == LastTime(evs, clock);
    }
  }

  /** One step of `Run`, written out. */
  lemma RunUnfold(s: State, evs: seq<Event>)
    requires evs != []
    ensures Run(s, evs) == Trace(Run(ShouldAcceptRreq(s, evs[0].source, evs[0].time).next, evs[1..]).final,
                                 [ShouldAcceptRreq(s, evs[0].source, evs[0].time).verdict]
                                   + Run(ShouldAcceptRreq(s, evs[0].source, evs[0].time).next, evs[1..]).verdicts)
  {
  }

  /** The verdict for a request from a source whose window, none of it
      expired, has been offered `held` stamps so far (its own stamps included)
      and which started out with `count` violations: accepted while the window
      has room, then rate-limited, one more violation each time, until the
      violations reach the threshold, and flagged from then on. */
  function VerdictAt(held: nat, count: nat): Verdict
  {
    if held < RreqLimit then Accepted
    else if count + (held - RreqLimit) < SuspiciousThreshold then RateLimited
    else Flagged
  }

  /** The violation count after `held` offered stamps, starting from `count`. */
  function CountAt(held: nat, count: nat): nat
  {
    var c := count + Overflow(held, RreqLimit);
    if c < SuspiciousThreshold then c else SuspiciousThreshold
  }

  /** What a source's entries must look like for `VerdictAt` to apply: a window
      no larger than the limit, at most the threshold of violations, and a full
      window if the source is already flagged (as rate-limiting leaves it). */
  predicate Settled(s: State, a: Addr)
  {
    && |WindowOf(s.times, a)| <= RreqLimit
    && CountOf(s.violations, a) <= SuspiciousThreshold
    && (CountOf(s.violations, a) >= SuspiciousThreshold ==> |WindowOf(s.times, a)| == RreqLimit)
  }

  /** Every reachable state is settled for every source. */
  lemma ValidMeansSettled(s: State, a: Addr)
    requires Valid(s)
    ensures Settled(s, a)
  {
  }

  /** After the first request the schedule of the rest is the first's shifted
      by one: a stamp recorded or a violation counted stands in for the
      request that caused it. */
  lemma ScheduleShift(held: nat, count: nat, held': nat, count': nat, j: nat)
    requires held <= RreqLimit && count <= SuspiciousThreshold
    requires count >= SuspiciousThreshold ==> held == RreqLimit
    requires held' == (if VerdictAt(held, count) == Accepted then held + 1 else held)
    requires count' == (if VerdictAt(held, count) == RateLimited then count + 1 else count)
    ensures VerdictAt(held' + j, count') == VerdictAt(held + j + 1, count)
    ensures CountAt(held' + j, count') == CountAt(held + j + 1, count)
  {
    if held < RreqLimit {
      assert held' == held + 1 && count' == count;
    } else if count < SuspiciousThreshold {
      assert held' == held && count' == count + 1;
    } else {
      assert held' == held && count' == count == SuspiciousThreshold;
    }
  }

  /** The verdicts of `n` requests from one source whose window, none of it
      expired, has been offered `held` stamps and whose count starts at
      `count`. */
  function Schedule(held: nat, count: nat, n: nat): (vs: seq<Verdict>)
    ensures |vs| == n
  {
    seq(n, i requires 0 <= i < n => VerdictAt(held + i, count))
  }

  /** The schedule is its first verdict followed by the schedule from the
      start that verdict leaves behind. */
  lemma ScheduleCons(held: nat, count: nat, held': nat, count': nat, n: nat)
    requires 1 <= n && held <= RreqLimit && count <= SuspiciousThreshold
    requires count >= SuspiciousThreshold ==> held == RreqLimit
    requires held' == (if VerdictAt(held, count) == Accepted then held + 1 else held)
    requires count' == (if VerdictAt(held, count) == RateLimited then count + 1 else count)
    ensures Schedule(held, count, n) == [VerdictAt(held, count)] + Schedule(held', count', n - 1)
  {
    var vs, rest := Schedule(held, count, n), Schedule(held', count', n - 1);
    forall i | 1 <= i < n
      ensures vs[i] == rest[i - 1]
    {
      ScheduleShift(held, count, held', count', i - 1);
    }
  }

  /** The requests `evs` all come from `a`, `a`'s entries are settled, and
      every request comes within `TimeWindow` of the oldest stamp of `a`'s
      window (or of the first request, if the window is empty). */
  predicate InOneWindow(s: State, a: Addr, evs: seq<Event>)
  {
    && FromOne(evs, a) && Settled(s, a)
    && forall i :: 0 <= i < |evs| ==>
         !Expired((WindowOf(s.times, a) + Times(evs))[0], evs[i].time, TimeWindow)
  }

  /** What the first request of a run from one source does to that source's
      window and count. */
  lemma {:induction false} StepEntries(s: State, a: Addr, evs: seq<Event>)
    requires evs != [] && InOneWindow(s, a, evs)
    ensures var o := ShouldAcceptRreq(s, evs[0].source, evs[0].time);
            var w, w' := WindowOf(s.times, a), WindowOf(o.next.times, a);
            var c, c' := CountOf(s.violations, a), CountOf(o.next.violations, a);
            && o.verdict == VerdictAt(|w|, c)
            && InOneWindow(o.next, a, evs[1..])
            && Kept(w' + Times(evs[1..]), RreqLimit) == Kept(w + Times(evs), RreqLimit)
            && |w'| == (if o.verdict == Accepted then |w| + 1 else |w|)
            && c' == (if o.verdict == RateLimited then c + 1 else c)
  {
    var w := WindowOf(s.times, a);
    var e := evs[0];
    assert e.source == a;
    TimesCons(w, evs);
    if !IsFlagged(s, a) {
      assert ExpiredPrefix(w, e.time, TimeWindow) == 0;
    }
    var o := ShouldAcceptRreq(s, e.source, e.time);
    ShiftWithinWindow(w, WindowOf(o.next.times, a), evs, TimeWindow, RreqLimit);
  }

  /** The first request of a run from one source takes the first verdict of
      the schedule and leaves the rest of the run the rest of the schedule. */
  lemma StepWithinWindow(s: State, a: Addr, evs: seq<Event>)
    requires evs != [] && InOneWindow(s, a, evs)
    ensures var o := ShouldAcceptRreq(s, evs[0].source, evs[0].time);
            var w, w' := WindowOf(s.times, a), WindowOf(o.next.times, a);
            var c, c' := CountOf(s.violations, a), CountOf(o.next.violations, a);
            && InOneWindow(o.next, a, evs[1..])
            && Kept(w' + Times(evs[1..]), RreqLimit) == Kept(w + Times(evs), RreqLimit)
            && [o.verdict] + Schedule(|w'|, c', |evs| - 1) == Schedule(|w|, c, |evs|)
            && CountAt(|w'| + (|evs| - 1), c') == CountAt(|w| + |evs|, c)
  {
    var o := ShouldAcceptRreq(s, evs[0].source, evs[0].time);
    var w, w' := WindowOf(s.times, a), WindowOf(o.next.times, a);
    var c, c' := CountOf(s.violations, a), CountOf(o.next.violations, a);
    StepEntries(s, a, evs);
    ScheduleCons(|w|, c, |w'|, c', |evs|);
    ScheduleShift(|w|, c, |w'|, c', |evs| - 1);
  }

  /** A run from a settled source `a` in which every request from `a` comes
      within `TimeWindow` of the oldest stamp of `a`'s window (or of its first
      request) follows the rate limiter's schedule: the window's room is
      accepted, every later request is rate-limited and counted as a
      violation, and once the violations reach the threshold every request is
      dropped as flagged; the window keeps the first `RreqLimit` stamps. */
  lemma {:induction false} RunWithinWindow(s: State, a: Addr, evs: seq<Event>)
    requires InOneWindow(s, a, evs)
    ensures Run(s, evs).verdicts == Schedule(|WindowOf(s.times, a)|, CountOf(s.violations, a), |evs|)
    ensures CountOf(Run(s, evs).final.violations, a)
              == CountAt(|WindowOf(s.times, a)| + |evs|, CountOf(s.violations, a))
    ensures WindowOf(Run(s, evs).final.times, a) == Kept(WindowOf(s.times, a) + Times(evs), RreqLimit)
    decreases |evs|
  {
    if evs == [] {
      assert WindowOf(s.times, a) + Times(evs) == WindowOf(s.times, a);
    } else {
      StepWithinWindow(s, a, evs);
      RunWithinWindow(ShouldAcceptRreq(s, evs[0].source, evs[0].time).next, a, evs[1..]);
      RunUnfold(s, evs);
    }
  }

  /** A source the detector has never heard from, sending requests that all
      fall within one `TimeWindow` of its first: the first `RreqLimit` are
      accepted, the next `SuspiciousThreshold` are rate-limited, and every
      later one is dropped as flagged; the count stops at the threshold. */
  lemma FreshSourceSchedule(s: State, a: Addr, evs: seq<Event>)
    requires a !in s.times && a !in s.violations && evs != [] && FromOne(evs, a)
    requires forall i :: 0 <= i < |evs| ==> !Expired(evs[0].time, evs[i].time, TimeWindow)
    ensures forall i :: 0 <= i < |evs| ==>
              Run(s, evs).verdicts[i]
                == if i < RreqLimit then Accepted
                   else if i < RreqLimit + SuspiciousThreshold then RateLimited
                   else Flagged
    ensures CountOf(Run(s, evs).final.violations, a)
              == if |evs| <= RreqLimit then 0
                 else if |evs| <= RreqLimit + SuspiciousThreshold then |evs| - RreqLimit
                 else SuspiciousThreshold
  {
    assert WindowOf(s.times, a) + Times(evs) == Times(evs);
    RunWithinWindow(s, a, evs);
  }
}

=== FILE: sliding_window.dfy ===
/** The per-source sliding window both detectors keep: a deque of time stamps,
    oldest first, whose expired front entries are popped before each decision. */
module SlidingWindow {
  import opened DefenseTypes

  /** Time stamps in non-decreasing order, oldest first. */
  predicate Sorted(w: seq<Time>)
  {
    forall i, j :: 0 <= i < j < |w| ==> w[i] <= w[j]
  }

  /** Every time stamp lies in the closed interval `[now - span, now]`. */
  predicate Within(w: seq<Time>, now: Time, span: nat)
  {
    forall i :: 0 <= i < |w| ==> now - span <= w[i] <= now
  }

  /** No time stamp is later than `now`. */
  predicate NotAfter(w: seq<Time>, now: Time)
  {
    forall i :: 0 <= i < |w| ==> w[i] <= now
  }

  /** An entry has expired when it is strictly more than `span` ticks old. */
  predicate Expired(t: Time, now: Time, span: nat)
  {
    now - t > span
  }

  /** How many times the eviction loop pops the front of the deque. */
  function ExpiredPrefix(w: seq<Time>, now: Time, span: nat): (k: nat)
    ensures k <= |w|
    ensures forall i :: 0 <= i < k ==> Expired(w[i], now, span)
    ensures k < |w| ==> !Expired(w[k], now, span)
  {
    if |w| == 0 || !Expired(w[0], now, span) then 0
    else 1 + ExpiredPrefix(w[1..], now, span)
  }

  /** The window left after popping expired entries from the front. */
  function Evict(w: seq<Time>, now: Time, span: nat): (r: seq<Time>)
    ensures |r| <= |w|
    ensures r == w[|w| - |r|..]
    ensures forall i :: 0 <= i < |w| - |r| ==> Expired(w[i], now, span)
    ensures |r| > 0 ==> !Expired(r[0], now, span)
  {
    w[ExpiredPrefix(w, now, span)..]
  }

  /** Popping stops at the first entry that is not expired: an entry exactly
      `span` ticks old is kept. */
  lemma {:induction false} EvictKeepsBoundary(w: seq<Time>, now: Time, span: nat)
    requires |w| > 0 && now - w[0] == span
    ensures Evict(w, now, span) == w
  {
    assert ExpiredPrefix(w, now, span) == 0;
  }

  /** Evicting a second time at the same instant removes nothing more. */
  lemma {:induction false} EvictIdempotent(w: seq<Time>, now: Time, span: nat)
    ensures Evict(Evict(w, now, span), now, span) == Evict(w, now, span)
  {
    var r := Evict(w, now, span);
    assert ExpiredPrefix(r, now, span) == 0;
  }

  /** On a sorted window eviction removes exactly the expired entries, wherever
      they are, and keeps every other one. */
  lemma {:induction false} EvictSortedExact(w: seq<Time>, now: Time, span: nat)
    requires Sorted(w)
    ensures forall t :: t in Evict(w, now, span) <==> t in w && !Expired(t, now, span)
  {
    var r := Evict(w, now, span);
    var k := |w| - |r|;
    forall t | t in w && !Expired(t, now, span)
      ensures t in r
    {
      var i :| 0 <= i < |w| && w[i] == t;
      assert i >= k;
      assert r[i - k] == t;
    }
    forall t | t in r
      ensures t in w && !Expired(t, now, span)
    {
      var j :| 0 <= j < |r| && r[j] == t;
      assert w[k + j] == t;
      assert r[0] <= r[j];
    }
  }

  /** A sorted window with no stamp after `now` is, once evicted, sorted and
      entirely inside `[now - span, now]`. */
  lemma EvictWithin(w: seq<Time>, now: Time, span: nat)
    requires Sorted(w) && NotAfter(w, now)
    ensures Sorted(Evict(w, now, span))
    ensures Within(Evict(w, now, span), now, span)
  {
    var r := Evict(w, now, span);
    var k := |w| - |r|;
    forall i | 0 <= i < |r|
      ensures now - span <= r[i] <= now
    {
      assert r[i] == w[k + i];
      assert r[0] == w[k];
    }
  }

  /** Appending the current time to a sorted window with no later stamp keeps it
      sorted. */
  lemma AppendSorted(w: seq<Time>, now: Time)
    requires Sorted(w) && NotAfter(w, now)
    ensures Sorted(w + [now])
    ensures NotAfter(w + [now], now)
  {
  }

  /** The stamps a window of capacity `cap` keeps of `ts` when they are offered
      in turn and none expires: the first `cap`. */
  function Kept(ts: seq<Time>, cap: nat): seq<Time>
  {
    if |ts| <= cap then ts else ts[..cap]
  }

  /** How many of `n` stamps offered to a window of capacity `cap` do not fit. */
  function Overflow(n: nat, cap: nat): nat
  {
    if n > cap then n - cap else 0
  }

  /** A full window keeps nothing more. */
  lemma {:induction false} KeptFull(w: seq<Time>, ts: seq<Time>, cap: nat)
    requires |w| == cap
    ensures Kept(w + ts, cap) == w
  {
    assert (w + ts)[..cap] == w;
  }

  /** Offering the first of `evs` to a window `w` of capacity `cap`, which
      either records it or is already full, changes neither what the window
      keeps of the whole run nor the oldest stamp the rest of the run is
      measured from. */
  lemma {:induction false} ShiftWithinWindow(w: seq<Time>, w': seq<Time>, evs: seq<Event>, span: nat, cap: nat)
    requires evs != [] && 0 < cap && |w| <= cap
    requires w' == w + [evs[0].time] || (w' == w && |w| == cap)
    requires forall i :: 0 <= i < |evs| ==> !Expired((w + Times(evs))[0], evs[i].time, span)
    ensures Kept(w' + Times(evs[1..]), cap) == Kept(w + Times(evs), cap)
    ensures forall i :: 0 <= i < |evs[1..]| ==>
              !Expired((w' + Times(evs[1..]))[0], evs[1..][i].time, span)
  {
    TimesCons(w, evs);
    if w' != w + [evs[0].time] {
      KeptFull(w, Times(evs), cap);
      KeptFull(w, Times(evs[1..]), cap);
    }
  }
}

=== FILE: sybil_defence.dfy ===
/** `SybilDetector`, the per-source rate and burst detector of the Sybil defence:
    a five-second sliding window admitting at most three packets per source,
    followed by a burst check on the window after the packet is recorded. It
    keeps per-source violation counts and the global `g_attackPacketsDropped`,
    and never blocks a source for good. */
module SybilDefence {
  import opened DefenseTypes
  import opened SlidingWindow
  import AddressOrder
  import opened CountTotal

  /** `g_detectionWindowSeconds`: five seconds, in ticks. */
  const DetectionWindow: nat := 5 * TicksPerSecond
  /** `g_maxAllowedRate`: at most this many packets per window and source. */
  const MaxAllowedRate: nat := 3
  /** `g_burstSizeThreshold`: how many recent packets the burst check looks at. */
  const BurstSizeThreshold: nat := 5
  /** The burst check's literal 0.5 s, in ticks. */
  const BurstSpan: nat := TicksPerSecond / 2

  /** `m_packetTimes`, `m_violationCounts` and `g_attackPacketsDropped`. */
  datatype State = State(times: map<Addr, seq<Time>>, violations: map<Addr, U32>, dropped: U32)

  /** Why a packet was accepted or dropped. */
  datatype Verdict = Accepted | RateLimited | Burst

  datatype Outcome = Outcome(next: State, verdict: Verdict)
  {
    predicate Accepts() { verdict.Accepted? }
  }

  /** The last `BurstSizeThreshold` stamps of the window span strictly less
      than half a second up to `now`. */
  predicate BurstDetected(w: seq<Time>, now: Time)
  {
    |w| >= BurstSizeThreshold && now - w[|w| - BurstSizeThreshold] < BurstSpan
  }

  /** On a sorted window the test on one stamp covers the five: a burst is
      detected exactly when the window holds at least `BurstSizeThreshold`
      stamps and each of the last `BurstSizeThreshold` is less than `BurstSpan`
      older than `now`. */
  lemma BurstMeansRecentFive(w: seq<Time>, now: Time)
    requires Sorted(w)
    ensures BurstDetected(w, now) <==>
              && |w| >= BurstSizeThreshold
              && forall k :: |w| - BurstSizeThreshold <= k < |w| ==> now - w[k] < BurstSpan
  {
  }

  /** The state after a drop: the caller's window as given, one more
      violation for the caller and one more dropped packet. */
  function Penalise(s: State, src: Addr, window: seq<Time>): State
  {
    State(s.times[src := window], s.violations[src := Inc32(CountOf(s.violations, src))], Inc32(s.dropped))
  }

  /** `ShouldAccept(src)` at simulation time `now`; `ShouldAcceptCases` states
      what it decides. */
  function ShouldAccept(s: State, src: Addr, now: Time): Outcome
  {
    var evicted := Evict(WindowOf(s.times, src), now, DetectionWindow);
    if |evicted| >= MaxAllowedRate then
      Outcome(Penalise(s, src, evicted), RateLimited)
    else
      var window := evicted + [now];
      if BurstDetected(window, now) then
        Outcome(Penalise(s, src, window), Burst)
      else
        Outcome(s.(times := s.times[src := window]), Accepted)
  }

  /** What one call decides and records, case by case. */
  lemma ShouldAcceptCases(s: State, src: Addr, now: Time)
    ensures var o := ShouldAccept(s, src, now);
            var evicted := Evict(WindowOf(s.times, src), now, DetectionWindow);
            // the deque is evicted in place, so the caller always ends up with an entry
            && src in o.next.times
            // a full evicted window rejects, and the rejected packet is not recorded
            && (o.verdict == RateLimited <==> |evicted| >= MaxAllowedRate)
            && (o.verdict == RateLimited ==> o.next.times[src] == evicted)
            // otherwise the packet is recorded first, and then judged for a burst
            && (o.verdict != RateLimited ==> o.next.times[src] == evicted + [now])
            && (o.verdict == Burst <==> o.verdict != RateLimited && BurstDetected(o.next.times[src], now))
            // every drop counts one violation and one dropped packet; an accept counts nothing
            && (!o.Accepts() ==>
                  && o.next.violations == s.violations[src := Inc32(CountOf(s.violations, src))]
                  && o.next.dropped == Inc32(s.dropped))
            && (o.Accepts() ==> o.next.violations == s.violations && o.next.dropped == s.dropped)
            // no other source's entries change
            && AgreeExcept(s.times, o.next.times, src)
            && AgreeExcept(s.violations, o.next.violations, src)
  {
  }

  /** What every reachable state satisfies: no window holds more than
      `MaxAllowedRate` stamps, and the drop counter is the sum of all violation
      counts, modulo 2^32. */
  predicate Valid(s: State)
  {
    && (forall a :: a in s.times ==> |s.times[a]| <= MaxAllowedRate)
    && s.dropped == Total(s.violations) % Modulus32
  }

  /** Per-source windows are sorted and hold no stamp after `clock`. */
  predicate Ordered(s: State, clock: Time)
  {
    forall a :: a in s.times ==> Sorted(s.times[a]) && NotAfter(s.times[a], clock)
  }

  lemma InitValid()
    ensures Valid(State(map[], map[], 0))
    ensures forall clock :: Ordered(State(map[], map[], 0), clock)
  {
    assert Total(map[]) == 0;
  }

  /** One call keeps the invariant: the caller's window never exceeds
      `MaxAllowedRate` and every drop is matched by one violation. */
  lemma StepPreservesValid(s: State, src: Addr, now: Time)
    requires Valid(s)
    ensures Valid(ShouldAccept(s, src, now).next)
    ensures |ShouldAccept(s, src, now).next.times[src]| <= MaxAllowedRate
  {
    StepBoundsWindows(s, src, now);
    StepKeepsBalance(s, src, now);
  }

  lemma StepBoundsWindows(s: State, src: Addr, now: Time)
    requires forall a :: a in s.times ==> |s.times[a]| <= MaxAllowedRate
    ensures forall a :: a in ShouldAccept(s, src, now).next.times ==>
              |ShouldAccept(s, src, now).next.times[a]| <= MaxAllowedRate
  {
    var n := ShouldAccept(s, src, now).next;
    forall a | a in n.times
      ensures |n.times[a]| <= MaxAllowedRate
    {
      if a != src {
        assert a in s.times;
      }
    }
  }

  lemma StepKeepsBalance(s: State, src: Addr, now: Time)
    requires s.dropped == Total(s.violations) % Modulus32
    ensures ShouldAccept(s, src, now).next.dropped == Total(ShouldAccept(s, src, now).next.violations) % Modulus32
  {
    if !ShouldAccept(s, src, now).Accepts() {
      DropKeepsBalance(s.violations, s.dropped, src);
    }
  }

  /** Sorted windows stay sorted while the clock does not go back, and the
      caller's window then lies within `[now - DetectionWindow, now]`, whichever
      way the packet is judged. */
  lemma StepKeepsOrder(s: State, src: Addr, now: Time, clock: Time)
    requires Ordered(s, clock) && clock <= now
    ensures Ordered(ShouldAccept(s, src, now).next, now)
    ensures Within(WindowOf(ShouldAccept(s, src, now).next.times, src), now, DetectionWindow)
  {
    var n := ShouldAccept(s, src, now).next;
    var w := WindowOf(s.times, src);
    var evicted := Evict(w, now, DetectionWindow);
    assert Sorted(w) && NotAfter(w, now);
    EvictWithin(w, now, DetectionWindow);
    AppendSorted(evicted, now);
    assert Within(evicted + [now], now, DetectionWindow);
    forall a | a in n.times
      ensures Sorted(n.times[a]) && NotAfter(n.times[a], now)
    {
      if a != src {
        assert a in s.times;
      }
    }
  }

  /** In an ordered state the burst test sees a sorted window, so a packet is
      dropped as a burst exactly when it passed the rate check and each of the
      last `BurstSizeThreshold` stamps of its window, itself included, is less
      than `BurstSpan` old. */
  lemma StepBurstTest(s: State, src: Addr, now: Time, clock: Time)
    requires Ordered(s, clock) && clock <= now
    ensures var o := ShouldAccept(s, src, now);
            var w := WindowOf(o.next.times, src);
            o.verdict == Burst <==>
              && o.verdict != RateLimited
              && |w| >= BurstSizeThreshold
              && forall k :: |w| - BurstSizeThreshold <= k < |w| ==> now - w[k] < BurstSpan
  {
    var o := ShouldAccept(s, src, now);
    StepKeepsOrder(s, src, now, clock);
    ShouldAcceptCases(s, src, now);
    BurstMeansRecentFive(WindowOf(o.next.times, src), now);
  }

  /** Counting one more violation for `src` and one more drop keeps the drop
      counter equal to the violations' sum, modulo 2^32. */
  lemma DropKeepsBalance(violations: map<Addr, U32>, dropped: U32, src: Addr)
    requires dropped == Total(violations) % Modulus32
    ensures Inc32(dropped) == Total(violations[src := Inc32(CountOf(violations, src))]) % Modulus32
  {
    TotalIncrement(violations, src);
    WrapAdd(Total(violations), 1);
    Inc32ThenAdd(dropped, 0);
  }

  /** With three allowed packets and a burst size of five, the burst branch can
      never fire: a window that passes the rate check holds at most three stamps
      once the packet is recorded. This holds in every state, reachable or not. */
  lemma BurstUnreachable(s: State, src: Addr, now: Time)
    ensures ShouldAccept(s, src, now).verdict != Burst
    ensures ShouldAccept(s, src, now).Accepts() <==> ShouldAccept(s, src, now).verdict != RateLimited
  {
    var o := ShouldAccept(s, src, now);
    if o.verdict != RateLimited {
      assert |o.next.times[src]| <= MaxAllowedRate < BurstSizeThreshold;
    }
  }

  /** There is no permanent block: once every stamp of a source's window is
      more than `DetectionWindow` old, its next packet is accepted whatever its
      violation count, and the window restarts from that packet. */
  lemma NoPermanentBlock(s: State, src: Addr, now: Time)
    requires forall i :: 0 <= i < |WindowOf(s.times, src)| ==> Expired(WindowOf(s.times, src)[i], now, DetectionWindow)
    ensures ShouldAccept(s, src, now).verdict == Accepted
    ensures ShouldAccept(s, src, now).next.times[src] == [now]
    ensures ShouldAccept(s, src, now).next.violations == s.violations
  {
    BurstUnreachable(s, src, now);
  }

  /** More generally, a packet is accepted whenever fewer than
      `MaxAllowedRate` of its source's stamps are still inside the window,
      whatever the source's violation count: the packet is recorded and no
      counter moves. */
  lemma DrainedAccepts(s: State, src: Addr, now: Time)
    requires |Evict(WindowOf(s.times, src), now, DetectionWindow)| < MaxAllowedRate
    ensures ShouldAccept(s, src, now).verdict == Accepted
    ensures ShouldAccept(s, src, now).next.times[src] == Evict(WindowOf(s.times, src), now, DetectionWindow) + [now]
    ensures ShouldAccept(s, src, now).next.violations == s.violations
    ensures ShouldAccept(s, src, now).next.dropped == s.dropped
  {
    BurstUnreachable(s, src, now);
  }

  /** One line of `PrintReport`: a source and its violation count. */
  datatype ReportLine = ReportLine(source: Addr, violations: U32)

  /** The lines for every entry of `m_violationCounts` and the drop total. */
  datatype SybilReport = SybilReport(lines: seq<ReportLine>, attackPacketsDropped: U32)

  function SybilReportOf(s: State): (r: SybilReport)
    ensures r.attackPacketsDropped == s.dropped
    ensures |r.lines| == |s.violations|
    ensures forall i :: 0 <= i < |r.lines| ==>
              r.lines[i].source in s.violations && r.lines[i].violations == s.violations[r.lines[i].source]
    ensures forall a :: a in s.violations ==> exists i :: 0 <= i < |r.lines| && r.lines[i].source == a
    ensures forall i, j :: 0 <= i < j < |r.lines| ==> r.lines[i].source < r.lines[j].source
  {
    var keys := AddressOrder.SortedKeys(s.violations.Keys);
    LinesCover(keys, s.violations);
    SybilReport(LinesOf(keys, s.violations), s.dropped)
  }

  /** One report line per key, in the order given. */
  function LinesOf(keys: seq<Addr>, m: map<Addr, U32>): (ls: seq<ReportLine>)
    requires forall i :: 0 <= i < |keys| ==> keys[i] in m
    ensures |ls| == |keys|
    ensures forall i :: 0 <= i < |keys| ==> ls[i].source == keys[i] && ls[i].violations == m[keys[i]]
  {
    if keys == [] then []
    else [ReportLine(keys[0], m[keys[0]])] + LinesOf(keys[1..], m)
  }

  /** Lines built from the ascending keys of a map describe the map exactly. */
  lemma LinesCover(keys: seq<Addr>, m: map<Addr, U32>)
    requires AddressOrder.StrictlyAscending(keys)
    requires forall a :: a in keys <==> a in m
    requires |keys| == |m|
    ensures forall i :: 0 <= i < |keys| ==> keys[i] in m
    ensures |LinesOf(keys, m)| == |m|
    ensures forall i :: 0 <= i < |LinesOf(keys, m)| ==>
              LinesOf(keys, m)[i].source in m && LinesOf(keys, m)[i].violations == m[LinesOf(keys, m)[i].source]
    ensures forall a :: a in m ==> exists i :: 0 <= i < |LinesOf(keys, m)| && LinesOf(keys, m)[i].source == a
    ensures forall i, j :: 0 <= i < j < |LinesOf(keys, m)| ==> LinesOf(keys, m)[i].source < LinesOf(keys, m)[j].source
  {
    forall i | 0 <= i < |keys|
      ensures keys[i] in m
    {
      assert keys[i] in keys;
    }
    var ls := LinesOf(keys, m);
    forall a | a in m
      ensures exists i :: 0 <= i < |ls| && ls[i].source == a
    {
      var i :| 0 <= i < |keys| && keys[i] == a;
      assert ls[i].source == a;
    }
  }

  /** The sum of the violation counts the report lists. */
  function SumLines(ls: seq<ReportLine>): nat
  {
    if ls == [] then 0 else ls[0].violations + SumLines(ls[1..])
  }

  /** Lines built from a list of distinct keys add up to the sum of those keys'
      counts. */
  lemma {:induction false} LinesTotal(keys: seq<Addr>, ks: set<Addr>, m: map<Addr, U32>)
    requires AddressOrder.StrictlyAscending(keys)
    requires ks <= m.Keys
    requires forall a :: a in keys <==> a in ks
    ensures SumLines(LinesOf(keys, m)) == TotalOver(ks, m)
    decreases |keys|
  {
    if keys == [] {
      assert ks == {};
    } else {
      TailCovers(keys, ks);
      LinesTotal(keys[1..], ks - {keys[0]}, m);
      assert LinesOf(keys, m)[1..] == LinesOf(keys[1..], m);
      TotalRemove(ks, m, keys[0]);
    }
  }

  /** Past its first key, an ascending key list covers the rest of the set. */
  lemma TailCovers(keys: seq<Addr>, ks: set<Addr>)
    requires AddressOrder.StrictlyAscending(keys) && |keys| > 0
    requires forall a :: a in keys <==> a in ks
    ensures AddressOrder.StrictlyAscending(keys[1..])
    ensures forall a :: a in keys[1..] <==> a in ks - {keys[0]}
  {
    var rest := keys[1..];
    forall a
      ensures a in rest <==> a in ks - {keys[0]}
    {
      if a in rest {
        var j :| 0 <= j < |rest| && rest[j] == a;
        assert keys[j + 1] == a;
      }
      if a in ks - {keys[0]} {
        var j :| 0 <= j < |keys| && keys[j] == a;
        assert rest[j - 1] == a;
      }
    }
  }

  /** In a reachable state the report's closing total is the sum of the lines
      above it, modulo 2^32. */
  lemma ReportTotalIsSum(s: State)
    requires Valid(s)
    ensures SybilReportOf(s).attackPacketsDropped == SumLines(SybilReportOf(s).lines) % Modulus32
  {
    LinesTotal(AddressOrder.SortedKeys(s.violations.Keys), s.violations.Keys, s.violations);
  }
}

=== FILE: sybil_traces.dfy ===
/** Runs of `SybilDetector` over a sequence of received packets: the invariant
    holds throughout, no run ever reports a burst, and a quick burst of five
    packets from one source is caught by the rate check instead. */
module SybilTraces {
  import opened DefenseTypes
  import opened SlidingWindow
  import opened SybilDefence

  datatype Trace = Trace(final: State, verdicts: seq<Verdict>)

  /** Feeds the packets to `ShouldAccept` in order; one verdict per packet. */
  function Run(s: State, evs: seq<Event>): (t: Trace)
    ensures |t.verdicts| == |evs|
    decreases |evs|
  {
    if evs == [] then Trace(s, [])
    else
      var o := ShouldAccept(s, evs[0].source, evs[0].time);
      var rest := Run(o.next, evs[1..]);
      Trace(rest.final, [o.verdict] + rest.verdicts)
  }

  lemma {:induction false} RunPreservesValid(s: State, evs: seq<Event>)
    requires Valid(s)
    ensures Valid(Run(s, evs).final)
    decreases |evs|
  {
    if evs != [] {
      StepPreservesValid(s, evs[0].source, evs[0].time);
      RunPreservesValid(ShouldAccept(s, evs[0].source, evs[0].time).next, evs[1..]);
    }
  }

  /** Everything the detector stores about source `a`. */
  function View(s: State, a: Addr): SourceView
  {
    SourceView(a in s.times, WindowOf(s.times, a), a in s.violations, CountOf(s.violations, a))
  }

  /** A packet from another source leaves `a`'s entries alone. */
  lemma StepFrame(s: State, src: Addr, now: Time, a: Addr)
    requires a != src
    ensures View(ShouldAccept(s, src, now).next, a) == View(s, a)
  {
  }

  /** The verdict for `a` and `a`'s next entries depend on `a`'s entries alone. */
  lemma StepLocal(s: State, s': State, a: Addr, now: Time)
    requires View(s, a) == View(s', a)
    ensures ShouldAccept(s, a, now).verdict == ShouldAccept(s', a, now).verdict
    ensures View(ShouldAccept(s, a, now).next, a) == View(ShouldAccept(s', a, now).next, a)
  {
  }

  /** Sources are judged independently: interleaving other sources' packets
      changes neither the verdicts for `a` nor what is stored about `a`. */
  lemma {:induction false} Independence(s: State, s': State, evs: seq<Event>, a: Addr)
    requires View(s, a) == View(s', a)
    ensures View(Run(s, evs).final, a) == View(Run(s', Only(evs, a)).final, a)
    ensures VerdictsFor(evs, Run(s, evs).verdicts, a) == Run(s', Only(evs, a)).verdicts
    decreases |evs|
  {
    if evs != [] {
      var e := evs[0];
      var o := ShouldAccept(s, e.source, e.time);
      RunUnfold(s, evs);
      var t := Run(s, evs);
      assert t.verdicts[1..] == Run(o.next, evs[1..]).verdicts;
      if e.source == a {
        var o' := ShouldAccept(s', a, e.time);
        StepLocal(s, s', a, e.time);
        Independence(o.next, o'.next, evs[1..], a);
        assert Only(evs, a) == [e] + Only(evs[1..], a);
        assert Only(evs, a)[1..] == Only(evs[1..], a);
        RunUnfold(s', Only(evs, a));
      } else {
        StepFrame(s, e.source, e.time, a);
        Independence(o.next, s', evs[1..], a);
      }
    }
  }

  /** No run, from any state, ever drops a packet as a burst: every drop is a
      rate-limit drop, and every other packet is accepted. */
  lemma {:induction false} RunNeverBurst(s: State, evs: seq<Event>)
    ensures forall i :: 0 <= i < |evs| ==> Run(s, evs).verdicts[i] in {Accepted, RateLimited}
    decreases |evs|
  {
    if evs != [] {
      BurstUnreachable(s, evs[0].source, evs[0].time);
      RunNeverBurst(ShouldAccept(s, evs[0].source, evs[0].time).next, evs[1..]);
      RunCons(s, evs);
    }
  }

  /** A packet whose source's window holds fewer than `MaxAllowedRate` stamps,
      the oldest not expired, is accepted and appended. */
  lemma AcceptStep(s: State, a: Addr, now: Time)
    requires |WindowOf(s.times, a)| < MaxAllowedRate
    requires WindowOf(s.times, a) != [] ==> !Expired(WindowOf(s.times, a)[0], now, DetectionWindow)
    ensures ShouldAccept(s, a, now).verdict == Accepted
    ensures WindowOf(ShouldAccept(s, a, now).next.times, a) == WindowOf(s.times, a) + [now]
    ensures CountOf(ShouldAccept(s, a, now).next.violations, a) == CountOf(s.violations, a)
    ensures ShouldAccept(s, a, now).next.dropped == s.dropped
  {
    assert ExpiredPrefix(WindowOf(s.times, a), now, DetectionWindow) == 0;
    BurstUnreachable(s, a, now);
    ShouldAcceptCases(s, a, now);
  }

  /** A packet whose source's window holds `MaxAllowedRate` stamps, the oldest
      not expired, is dropped by the rate check. */
  lemma RejectStep(s: State, a: Addr, now: Time)
    requires |WindowOf(s.times, a)| == MaxAllowedRate
    requires !Expired(WindowOf(s.times, a)[0], now, DetectionWindow)
    ensures ShouldAccept(s, a, now).verdict == RateLimited
    ensures WindowOf(ShouldAccept(s, a, now).next.times, a) == WindowOf(s.times, a)
    ensures CountOf(ShouldAccept(s, a, now).next.violations, a) == Inc32(CountOf(s.violations, a))
    ensures ShouldAccept(s, a, now).next.dropped == Inc32(s.dropped)
  {
    assert ExpiredPrefix(WindowOf(s.times, a), now, DetectionWindow) == 0;
    ShouldAcceptCases(s, a, now);
  }

  /** What the first packet of a run from one source does to that source's
      window, count and drop counter, in the terms `RunWithinWindow` needs. */
  lemma {:induction false} StepWithinWindow(s: State, a: Addr, evs: seq<Event>)
    requires evs != [] && FromOne(evs, a)
    requires |WindowOf(s.times, a)| <= MaxAllowedRate
    requires forall i :: 0 <= i < |evs| ==>
               !Expired((WindowOf(s.times, a) + Times(evs))[0], evs[i].time, DetectionWindow)
    ensures var o := ShouldAccept(s, evs[0].source, evs[0].time);
            var w, w' := WindowOf(s.times, a), WindowOf(o.next.times, a);
            && o.verdict == (if |w| < MaxAllowedRate then Accepted else RateLimited)
            && |w'| <= MaxAllowedRate
            && Kept(w' + Times(evs[1..]), MaxAllowedRate) == Kept(w + Times(evs), MaxAllowedRate)
            && FromOne(evs[1..], a)
            && (forall i :: 0 <= i < |evs[1..]| ==>
                  !Expired((w' + Times(evs[1..]))[0], evs[1..][i].time, DetectionWindow))
            && CountOf(o.next.violations, a)
                 == (if o.verdict == Accepted then CountOf(s.violations, a) else Inc32(CountOf(s.violations, a)))
            && o.next.dropped == (if o.verdict == Accepted then s.dropped else Inc32(s.dropped))
            && |w'| == (if o.verdict == Accepted then |w| + 1 else |w|)
  {
    var w := WindowOf(s.times, a);
    var e := evs[0];
    assert e.source == a;
    TimesCons(w, evs);
    if |w| < MaxAllowedRate {
      AcceptStep(s, e.source, e.time);
    } else {
      RejectStep(s, e.source, e.time);
    }
    ShiftWithinWindow(w, WindowOf(ShouldAccept(s, e.source, e.time).next.times, a), evs, DetectionWindow, MaxAllowedRate);
  }

  /** A run's verdicts are its first packet's verdict followed by the rest's. */
  lemma {:induction false} RunCons(s: State, evs: seq<Event>)
    requires evs != []
    ensures var o := ShouldAccept(s, evs[0].source, evs[0].time);
            && Run(s, evs).final == Run(o.next, evs[1..]).final
            && (forall i :: 1 <= i < |evs| ==>
                  Run(s, evs).verdicts[i] == Run(o.next, evs[1..]).verdicts[i - 1])
            && Run(s, evs).verdicts[0] == o.verdict
  {
    var o := ShouldAccept(s, evs[0].source, evs[0].time);
    var r := Run(o.next, evs[1..]);
    RunUnfold(s, evs);
    ConsIndex(o.verdict, r.verdicts);
  }

  /** One step of `Run`, written out. */
  lemma RunUnfold(s: State, evs: seq<Event>)
    requires evs != []
    ensures Run(s, evs) == Trace(Run(ShouldAccept(s, evs[0].source, evs[0].time).next, evs[1..]).final,
                                 [ShouldAccept(s, evs[0].source, evs[0].time).verdict]
                                   + Run(ShouldAccept(s, evs[0].source, evs[0].time).next, evs[1..]).verdicts)
  {
  }

  /** Within one detection window, counted from the oldest stamp of the
      source's window (or from its first packet), the source gets exactly as
      many packets through as its window has room for; every later one is
      rate-limited and counted once as a violation and once as a drop (below
      the 32-bit wrap). */
  lemma {:induction false} RunWithinWindow(s: State, a: Addr, evs: seq<Event>)
    requires FromOne(evs, a)
    requires |WindowOf(s.times, a)| <= MaxAllowedRate
    requires forall i :: 0 <= i < |evs| ==>
               !Expired((WindowOf(s.times, a) + Times(evs))[0], evs[i].time, DetectionWindow)
    requires CountOf(s.violations, a) + |evs| < Modulus32 && s.dropped + |evs| < Modulus32
    ensures forall i :: 0 <= i < |evs| ==>
              Run(s, evs).verdicts[i] == if |WindowOf(s.times, a)| + i < MaxAllowedRate then Accepted else RateLimited
    ensures CountOf(Run(s, evs).final.violations, a)
              == CountOf(s.violations, a) + Overflow(|WindowOf(s.times, a)| + |evs|, MaxAllowedRate)
    ensures Run(s, evs).final.dropped == s.dropped + Overflow(|WindowOf(s.times, a)| + |evs|, MaxAllowedRate)
    ensures WindowOf(Run(s, evs).final.times, a) == Kept(WindowOf(s.times, a) + Times(evs), MaxAllowedRate)
    decreases |evs|
  {
    var w := WindowOf(s.times, a);
    if evs == [] {
      assert w + Times(evs) == w;
    } else {
      StepWithinWindow(s, a, evs);
      RunWithinWindow(ShouldAccept(s, evs[0].source, evs[0].time).next, a, evs[1..]);
      RunCons(s, evs);
    }
  }

  /** Five packets from one source within half a second, the pattern the
      burst check was written for: from the initial state the first three are
      accepted and the last two are dropped by the rate check, each counting
      one violation; the burst check never sees them. */
  lemma {:induction false} FiveQuickPackets(a: Addr, evs: seq<Event>)
    requires |evs| == 5 && InTimeOrder(evs, evs[0].time) && FromOne(evs, a)
    requires evs[4].time - evs[0].time < BurstSpan
    ensures Run(State(map[], map[], 0), evs).verdicts == [Accepted, Accepted, Accepted, RateLimited, RateLimited]
    ensures WindowOf(Run(State(map[], map[], 0), evs).final.times, a) == [evs[0].time, evs[1].time, evs[2].time]
    ensures CountOf(Run(State(map[], map[], 0), evs).final.violations, a) == 2
    ensures Run(State(map[], map[], 0), evs).final.dropped == 2
  {
    var s0 := State(map[], map[], 0);
    var ts := Times(evs);
    assert WindowOf(s0.times, a) + ts == ts;
    forall i | 0 <= i < |evs|
      ensures !Expired(ts[0], evs[i].time, DetectionWindow)
    {
      assert evs[i].time <= evs[4].time;
    }
    RunWithinWindow(s0, a, evs);
    var v := Run(s0, evs).verdicts;
    assert v[0] == Accepted && v[1] == Accepted && v[2] == Accepted;
    assert v[3] == RateLimited && v[4] == RateLimited;
    assert Kept(ts, MaxAllowedRate) == [ts[0], ts[1], ts[2]];
  }

  /** While the clock does not go back, every window stays sorted and holds no
      stamp after the last packet's time, so the burst test at any later call
      sees a sorted window (`BurstMeansRecentFive`). */
  lemma {:induction false} RunKeepsOrder(s: State, evs: seq<Event>, clock: Time)
    requires Ordered(s, clock) && InTimeOrder(evs, clock)
    ensures Ordered(Run(s, evs).final, LastTime(evs, clock))
    decreases |evs|
  {
    if evs != [] {
      var e := evs[0];
      StepKeepsOrder(s, e.source, e.time, clock);
      assert InTimeOrder(evs[1..], e.time);
      RunKeepsOrder(ShouldAccept(s, e.source, e.time).next, evs[1..], e.time);
      assert LastTime(evs[1..], e.time) == LastTime(evs, clock);
    }
  }
}
